=== FILE: README.md ===
# Hogwarts House Cup leaderboard: client synchronisation and backend logic in Dafny

This project models the part of the House Cup leaderboard that has real
behaviour. It covers three pieces:

- The browser client's synchronisation layer: the socket handlers, the
  effect that re-requests points, the live-update toggle, the reconciliation
  of inbound `totals` and `event` payloads, and the auto-hiding event
  notification.
- The client's house and window constants and chart helpers.
- The backend's small pure logic: command dispatch, the shared streaming
  flag, HTTP window validation, and the per-window points aggregation.

Everything is an immutable value and a pure transition function. Outbound
traffic is the sequence of `Action`s (`get_points`, `start`, `stop`) each
transition sends. Browser and server I/O become parameters or explicit steps.

Modules (one per source file, plus shared ones):

- `Base`: Option and Result.
- `Entries`: a house-points object as an ordered list of string-keyed entries, with own-property read (`Lookup`) and write (`Assign`).
- `Houses`: client/src/constants/houseData.js, with the backend's category list.
- `Wire`: the event record, outbound actions, parsed inbound payloads.
- `Reconcile`: the inbound-payload handling that App.jsx and useHouseData.js share, parameterised by the window the handler filters on.
- `WebSocketHook`: client/src/hooks/useWebSocket.js.
- `HouseDataHook`: client/src/hooks/useHouseData.js.
- `Notification`: client/src/components/EventNotification.jsx.
- `ChartUtils`: client/src/utils/chartUtils.js.
- `App`: client/src/App.jsx. React re-renders are explicit: `Dispatch` runs a handler and then re-runs the effect if `timeWindow`, `socket` or `isLive` changed. The window the message handler filters on is a parameter. `Registered` is the code as written, where the handler keeps the window captured at mount. `Current` is the corrected handler.
- `Store`: backend/database.py. The table is a sequence of rows; timestamps are integer seconds; `now` is a parameter.
- `Server`: backend/main.py.
- `Protocol`: lemmas that join client and server.

The model follows the code as written. Two consequences are worth knowing:

- Toggling live on sends `start` and then, through the effect, `get_points`, `stop`, `start`.
- Selecting a window performs no validation; the client's windows form a closed set.

The two defects under "## Findings" are modelled both as written and corrected.

## Model

| member | source | states |
|---|---|---|
| Entries.Assign | backend/database.py:75-76 | Writing `totals[category]` makes that key read as the new value and leaves every other key's value alone. An existing key keeps its position; a new key is appended. |
| Houses.Key | client/src/constants/houseData.js:1-6 | Every house's object key parses back to that house. |
| Houses.HouseConstantsShareKeys | client/src/constants/houseData.js:1-60 | HOUSE_NAMES, HOUSE_DESCRIPTIONS, HOUSE_COLORS, HOUSE_ICONS and INITIAL_HOUSE_POINTS each have exactly the four house keys, and INITIAL_HOUSE_POINTS has no repeated key. |
| Houses.HouseNamesInjective | client/src/constants/houseData.js:1-6 | No two house keys share a display name. |
| Houses.InitialPointsAreZero | client/src/constants/houseData.js:55-60 | INITIAL_HOUSE_POINTS has four entries and reads 0 for every house. |
| Houses.ClientKeysMatchBackendCategories | backend/database.py:72 | The backend's zero-initialised category list is the client's house key list, in the same order. |
| Houses.WindowId | client/src/constants/houseData.js:49-53 | Every window's wire id parses back to that window. |
| Houses.TimeWindowIdsDistinct | client/src/constants/houseData.js:49-53 | TIME_WINDOWS lists exactly 5m, 1h and all, in that order, and no id repeats. |
| Reconcile.Apply | client/src/hooks/useHouseData.js:12-29 | A snapshot for the handler's window replaces the points wholesale; otherwise the points are unchanged. An event becomes the latest event; otherwise the latest event is unchanged. An unparseable payload changes nothing. |
| Reconcile.LastSnapshotWins | client/src/hooks/useHouseData.js:17-25 | After any sequence of payloads, the points equal the snapshot in the most recent payload that carries one for the handler's window, and never a merge of two. If no payload carries one, the starting points remain. The latest event works the same way. |
| Reconcile.FieldsIndependent | client/src/hooks/useHouseData.js:17-25 | A payload with both fields acts as its totals part followed by its event part. A payload with neither changes nothing. |
| Reconcile.OtherWindowsDiscarded | client/src/hooks/useHouseData.js:17-20 | Totals for other windows have no effect: two payloads that agree on the handler's window and on the event give the same state. |
| WebSocketHook.Init | client/src/hooks/useWebSocket.js:4-8 | A new hook holds no socket and is not connected. It remembers the socket its effect created. |
| WebSocketHook.OnOpen | client/src/hooks/useWebSocket.js:10-15 | Open publishes the created socket and sets connected. `onOpen` is called once with that socket if it is provided, and not at all otherwise. |
| WebSocketHook.OnClose | client/src/hooks/useWebSocket.js:17-21 | Close clears the socket and the connected flag. |
| WebSocketHook.OnError | client/src/hooks/useWebSocket.js:23-26 | Error clears the connected flag and keeps the socket. |
| WebSocketHook.SendMessage | client/src/hooks/useWebSocket.js:35-39 | A message goes out exactly when a socket is held and the transport is OPEN. It goes out once and unchanged; otherwise it is dropped silently. |
| WebSocketHook.RunConsistent | client/src/hooks/useWebSocket.js:10-26 | Any sequence of open, close and error signals keeps "connected implies a socket is held". The only socket ever published is the one created. |
| WebSocketHook.ErrorLeavesSocket | client/src/hooks/useWebSocket.js:23-39 | Open followed by error reaches a state that holds a socket while not connected. `sendMessage` still transmits in that state if the transport is open. |
| WebSocketHook.TeardownClosesCreated | client/src/hooks/useWebSocket.js:28-32 | Teardown closes the socket the effect created, even after close or error has changed the state. |
| HouseDataHook.InitialView | client/src/hooks/useHouseData.js:5-6 | The hook starts with every house at zero and no latest event. |
| HouseDataHook.Receive | client/src/hooks/useHouseData.js:9-36 | With no socket, no handler is registered, so nothing changes. With a socket, the snapshot for the current window replaces the points and the event becomes the latest event. Each field leaves its state alone when absent. An unparseable payload changes nothing. |
| HouseDataHook.RequestPoints | client/src/hooks/useHouseData.js:39-48 | One run of the request effect sends exactly one `get_points` for the current window when the socket is open, and nothing otherwise. |
| HouseDataHook.Rerender | client/src/hooks/useHouseData.js:39-48 | A render sends at most one message. It is a `get_points` for the new window, sent exactly when the socket or the window changed and the socket is open. |
| HouseDataHook.StartLiveUpdates | client/src/hooks/useHouseData.js:50-54 | A call sends exactly one `start` while open and nothing otherwise. |
| HouseDataHook.StopLiveUpdates | client/src/hooks/useHouseData.js:56-60 | A call sends exactly one `stop` while open and nothing otherwise. |
| HouseDataHook.LiveCommandsRepeat | client/src/hooks/useHouseData.js:50-60 | No live state is kept, so two calls while open send the command twice. |
| HouseDataHook.SwitchThenReplyApplied | client/src/hooks/useHouseData.js:9-48 | Switching windows while open sends `get_points` for the new window. The reply keyed by that window then replaces the points, because the handler is re-registered for the new window. |
| Notification.Cleanup | client/src/components/EventNotification.jsx:11 | The previous run's cleanup clears the timer that run scheduled. `show` is left as it was. |
| Notification.EffectRun | client/src/components/EventNotification.jsx:7-13 | When the event and visibility are both truthy, the run shows the notification and schedules one fresh timer. Otherwise `show` is untouched and no timer is scheduled. In both cases the previous run's timer is cleared. |
| Notification.Expire | client/src/components/EventNotification.jsx:10 | A pending timer firing hides the notification. A timer that was cleared or has already fired does nothing. |
| Notification.Close | client/src/components/EventNotification.jsx:39 | The close button hides the notification and leaves the pending timer alone. |
| Notification.Unmount | client/src/components/EventNotification.jsx:11 | Unmounting leaves no timer pending. |
| Notification.InitValid | client/src/components/EventNotification.jsx:4-5 | The mounted component shows nothing, has no timer pending and satisfies the invariant. |
| Notification.AtMostOnePending | client/src/components/EventNotification.jsx:7-13 | In every reachable state at most one hide timer is pending. |
| Notification.StepValid | client/src/components/EventNotification.jsx:7-39 | Prop changes, timer expiries, closes and unmounts all keep "every pending timer is the latest run's timer". |
| Notification.RunValid | client/src/components/EventNotification.jsx:7-39 | Any interleaving of those steps leaves at most one timer pending. |
| Notification.NewEventResetsTimer | client/src/components/EventNotification.jsx:7-15 | After a triggering re-run the notification renders and no older timer can hide it. Only the newly scheduled timer does. |
| Notification.HiddenWhenInvisible | client/src/components/EventNotification.jsx:8-15 | When not visible, the effect leaves `show` unchanged, yet nothing renders. |
| Notification.CloseHides | client/src/components/EventNotification.jsx:15-39 | Nothing renders after the close button, whatever the props. |
| ChartUtils.FormatChartData | client/src/utils/chartUtils.js:3-9 | There is one row per entry, in entry order. Each row carries the entry's key as `house`, its value unchanged as `points`, and HOUSE_NAMES' own property for the key as `name`, or undefined when it has none. |
| ChartUtils.FindKey | client/src/utils/chartUtils.js:12 | The search returns a key whose name is the given name, or undefined only when no listed key has that name. |
| ChartUtils.GetHouseKeyFromName | client/src/utils/chartUtils.js:11-13 | The result's display name is the argument. The result is undefined exactly when the argument is not a HOUSE_NAMES value. |
| ChartUtils.NameKeyRoundTrip | client/src/utils/chartUtils.js:11-13 | For every house key k, looking up the key of HOUSE_NAMES[k] gives back k. |
| ChartUtils.RowNamesInvert | client/src/utils/chartUtils.js:3-13 | When the input keys are houses, every row has a name, and that name maps back to the row's house. |
| App.InitialState | client/src/App.jsx:5-15 | At start every house is at 0 and the window is `all`. Nothing is live, connected, received or selected. |
| App.OnOpen | client/src/App.jsx:45-54 | Open stores the socket and changes nothing else. It sends exactly one `get_points` for `all`, the window the handler captured at mount. |
| App.Receive | client/src/App.jsx:56-69 | As written, only the snapshot for `all` replaces the points, and the event becomes the latest event. Absent fields leave their state alone. Window, live flag, socket and selection never change. |
| App.ReceiveCurrent | client/src/App.jsx:56-69 | The corrected handler: the snapshot for the currently selected window replaces the points. It behaves like App.Receive otherwise. |
| App.OnClose | client/src/App.jsx:71-75 | Close clears the socket and forces live updates off. Points, window, event and selection are kept. |
| App.Effect | client/src/App.jsx:85-98 | Without a socket, the effect sends nothing. With one, it first sends `get_points` for the current window, then `stop` and `start` in that order only when live. |
| App.SelectWindow | client/src/App.jsx:101-103 | Selecting a window sets it and changes nothing else. |
| App.Toggle | client/src/App.jsx:106-117 | Without a socket the toggle is a no-op. With one it flips the live flag and sends exactly `start` when turning on, or `stop` when turning off. |
| App.Click | client/src/App.jsx:120-122 | Clicking the selected house clears the selection. Clicking any other house selects it. Nothing else changes. |
| App.ClickTwice | client/src/App.jsx:120-122 | Two identical clicks restore the state exactly when nothing, or that same house, was selected. From another selected house they clear the selection. |
| App.NotificationNeedsLive | client/src/App.jsx:325 | The inline notification shows only while live, so it needs a socket, is hidden after close, and is hidden at start. |
| App.Dispatch | client/src/App.jsx:42-122 | Per signal, what goes out on the socket. Open from no socket sends `get_points` for `all`, then `get_points` for the current window, then `stop`, `start` if live. Payloads, close and house clicks send nothing. A new window sends `get_points` for it, then `stop`, `start` when live; re-selecting the current one sends nothing. The toggle sends `start`, `get_points`, `stop`, `start` when turning on, and `stop`, `get_points` when turning off. Without a socket, only open sends anything. Live is never on without a socket. A payload is applied through the as-written or the corrected handler, as chosen. |
| App.SilentUntilOpen | client/src/App.jsx:71-117 | From a closed state, no sequence of non-open signals sends anything or turns live updates on, with either handler. |
| App.StaleFilterDropsReply | client/src/App.jsx:56-64 | As written, the reply to the effect's request for any window other than `all` leaves the whole state unchanged. |
| App.StaleFilterExample | client/src/App.jsx:56-64 | Concretely, connected on `5m`, a reply giving Gryff 7 points leaves Gryff at 0 as written, and shows 7 with the corrected handler. |
| App.CurrentFilterAppliesReply | client/src/App.jsx:56-64 | With the corrected handler, that reply replaces the points and leaves the latest event alone. |
| Store.Ingest | backend/database.py:29-40 | Ingest succeeds exactly when the id is new, and then appends exactly that row. A duplicate id is rejected with an integrity error. |
| Store.IngestKeepsIdsUnique | backend/database.py:17-37 | Successful ingestion keeps ids unique and grows the table by one row. |
| Store.Filter | backend/database.py:56-66 | Every row that passes the window's timestamp condition is aggregated, as often as it occurs, and no other row is. |
| Store.Groups | backend/database.py:58-66 | The GROUP BY keys are exactly the categories that occur, each once. |
| Store.Sum | backend/database.py:58-65 | A category's SUM is never negative when no row's points are. |
| Store.GroupResults | backend/database.py:58-68 | The result set has one row per group, carrying the category and the sum of its points. |
| Store.ZeroTotals | backend/database.py:71-72 | The totals start with the four house keys in order, each at 0. |
| Store.CopyResults | backend/database.py:74-76 | Copying the results keeps every key already present at its position; new categories come after. |
| Store.CopyResultsLookup | backend/database.py:71-76 | Copying the grouped results overwrites exactly the categories they carry, and other keys keep their initial value. |
| Store.PointsByWindow | backend/database.py:42-78 | The result always has the four houses first, in order. Each holds the sum of points of that house's rows that pass the window filter, or 0 when there are none. |
| Store.HouseTotals | backend/database.py:71-78 | Seeding the four houses at zero and then copying the grouped sums over them leaves each house holding its filtered sum, with the houses still first and in order. |
| Store.WindowsNested | backend/database.py:56-66 | With non-negative points, a category's 5m sum is at most its 1h sum, which is at most its all-time sum. |
| Store.WindowTotalsNested | backend/database.py:42-78 | The per-house totals returned for 5m, 1h and all are nested in that order for non-negative points. |
| Store.IngestUpdatesTotals | backend/database.py:29-78 | Ingesting a row raises its house's total by its points in every window whose filter it passes. Every other window and house is left unchanged. |
| Server.Init | backend/main.py:31-35 | The manager starts with no connections, the stream off and no task. |
| Server.Connect | backend/main.py:37-39 | The socket is appended to the connection list; the flag and task are untouched. |
| Server.RemoveFirst | backend/main.py:41-42 | `list.remove` drops exactly the first occurrence of the socket: the list before it, then the list after it. |
| Server.Disconnect | backend/main.py:41-42 | This removes exactly one occurrence of the socket. A socket that is not listed raises. |
| Server.StartStream | backend/main.py:52-56 | When already running, the manager is unchanged. Otherwise the flag is set and a new uncancelled task is recorded. |
| Server.StopStream | backend/main.py:84-87 | This clears the flag and cancels the existing task, which stays recorded. Without a task, nothing is cancelled. |
| Server.StartStopFlag | backend/main.py:52-87 | A second start is a no-op. A stop after a start leaves the single shared flag off for every connection. |
| Server.HttpGetPoints | backend/main.py:96-106 | Any window outside 5m, 1h and all is rejected with status 400. Otherwise that window's totals are returned. |
| Server.ClientWindowsValid | backend/main.py:103-104 | Every window the client can select passes the HTTP validation. |
| Server.HandleCommand | backend/main.py:113-125 | `start` replies `started` even if already running; `stop` replies `stopped`; `get_points` replies with totals keyed by the requested window, defaulting to `all`. Any other action gets no reply. Two commands raise: a payload that is not a JSON object, and a `get_points` whose window is an array or object and so cannot key the reply dict. No command changes the connection list. |
| Server.WebsocketWindowUnvalidated | backend/main.py:122-125 | An unknown window over the websocket is aggregated like `all` and echoed back as the key, while HTTP rejects it. |
| Server.UnknownWindowCountsAll | backend/database.py:56-66 | A window id other than 5m and 1h applies no time cut: every row is kept. |
| Server.AllTotals | backend/main.py:67-74 | A broadcast carries totals for exactly the windows 5m, 1h and all, each computed for that window. |
| Server.StreamTick | backend/main.py:63-74 | A tick succeeds exactly when ingest does. It appends the record and broadcasts it, with all three windows' totals computed after the ingest. |
| Server.Session | backend/main.py:108-127 | As written, a session in which no command raises leaves the list as it found it. If any command raises (not a JSON object, or `get_points` with an array or object window), the socket stays appended. |
| Server.SessionReleasing | backend/main.py:108-127 | Removing the socket on every exit path, every session leaves the list as it found it. |
| Server.Serve | backend/main.py:108-127 | When no command raises, the input ends in a disconnect and the socket is removed once. As written, a command that raises ends the loop with the list untouched. When releasing on every exit, the socket is always removed once. |
| Server.SessionLeaksOnBadCommand | backend/main.py:108-127 | As written, a command that raises, at any position in the session, leaves the socket in the broadcast list. |
| Server.SessionLeakExample | backend/main.py:108-127 | Concretely, a client that sends `start` and then `hello` stays listed while the stream keeps running. |
| Server.SessionLeakUnhashableExample | backend/main.py:122-127 | Concretely, a client that sends `start` and then `get_points` with an array as the window stays listed while the stream keeps running. |
| Protocol.HookRequestRoundTrip | client/src/hooks/useHouseData.js:39-48 | The hook's `get_points` request, once served and reconciled, leaves exactly that window's totals from the table on screen. The latest event is untouched. |
| Protocol.StreamTickReconciled | backend/main.py:67-74 | For a client on any window, a stream tick sets the points to that window's totals after the ingest and the latest event to the record. |
| Protocol.BroadcastReconciled | client/src/hooks/useHouseData.js:17-25 | A broadcast carrying totals for every valid window sets the client's points to its own window's entry and its latest event to the record. |
| Protocol.StatusRepliesIgnored | backend/main.py:116-121 | `started`/`stopped` replies leave the client state unchanged. |
| Protocol.AppStreamShowsAllTime | client/src/App.jsx:59-64 | As written, App shows all-time totals on every tick whatever window is selected. The corrected handler shows the selected window's totals. |

## Left out

- Presentation is not modelled: JSX markup, styling, the chart and its layout, and App.jsx's hover state. App.jsx's inline `chartData` is the same expression as `ChartUtils.FormatChartData`, and its inline name tables equal `Houses.HouseNames` and `Houses.HouseDescriptions`.
- React scheduling, batching and closures are modelled only through explicit effect re-runs (`App.Dispatch`, `HouseDataHook.Rerender`, `Notification.EffectRun`).
- Notification.Apply: a `PropsChanged` step re-runs the effect even when the props equal the previous ones, which React would skip. Every property proved for all step sequences therefore also holds for the re-runs React actually performs.
- WebSocketHook: a change of `url` or `onOpen` re-runs the connection effect. The model covers only the fresh hook and the teardown of the old socket, not late signals from the old socket's handlers.
- WebSocket transport and JSON parsing are abstracted. Inbound payloads are a datatype with optional `totals` and `event` fields and a Malformed case. Outbound messages are the `Action` datatype. Server commands are a datatype whose fields are either strings or absent.
- ChartUtils.FormatChartData: a key naming an `Object.prototype` member, such as `constructor` or `toString`, is read as an own property only. Its row's name is undefined, whereas JavaScript's `HOUSE_NAMES[house]` yields the inherited value. The same holds for `Entries.Lookup` wherever a points object is indexed.
- Reconcile.Apply: a `totals` entry or `event` that is present but falsy in JavaScript (null, 0, empty string) is treated as absent. Non-object values are not modelled.
- Server.HandleCommand: an `action` that is JSON but not a string is treated as absent, which matches the source, since it equals none of the three action names. A `time_window` that is a number, boolean or null is represented by the JSON text it becomes as a reply key (`5`, `true`, `null`). Like any unknown string, it is aggregated over all rows.
- SQLite I/O is replaced by a sequence of rows. ISO-8601 timestamp strings and `datetime.utcnow()` are replaced by integer seconds and a `now` parameter.
- Store.Groups: the result set lists categories in first-occurrence order. SQLite's actual group order only matters for categories other than the four houses, which come after the houses either way.
- The asyncio stream loop, `broadcast`, `asyncio.sleep` and task cancellation timing are left out. `Server.StreamTick` models the data of one iteration, and `cancelled` only records that `cancel()` was called.
- Random record generation in data_gen.py is left out. populate_test_data.py is not part of this model: it is a script calling a method the database class does not have.
- `setTimeout` timing is replaced by explicit expiry steps. `Notification.HideDelayMs` records the 5000 ms delay.

## Findings

| source | as written | input that shows it | evidently intended | confidence | as-written member | corrected member |
|---|---|---|---|---|---|---|
| client/src/App.jsx:56-64 | The `onmessage` handler is installed once at mount. It reads `totals[timeWindow]` through the window captured then, which is always `all`. | Connect, then select "Last 5 Minutes". The effect sends `get_points` for `5m`, and the reply `{"totals": {"5m": {...}}}` is ignored. Stream ticks keep showing all-time totals. | The points shown are those of the selected window, as the comment there says and as useHouseData.js does by re-registering its handler. | not executed; high | App.Receive, App.StaleFilterDropsReply, App.StaleFilterExample (App.Dispatch with `Registered`) | App.ReceiveCurrent, App.CurrentFilterAppliesReply (App.Dispatch with `Current`) |
| backend/main.py:108-127 | Only `WebSocketDisconnect` leads to `manager.disconnect`. A text frame that is not a JSON object raises another exception out of the loop, and so does a `get_points` whose `time_window` is an array or object, which cannot key the reply dict. | A client sends the text `hello`: `json.loads` raises. Or it sends `{"action": "get_points", "time_window": []}`: building the reply raises a TypeError. Either way the handler ends and the socket stays in `active_connections`. | Every ended session removes its socket from the broadcast list. | not executed; medium | Server.Session, Server.SessionLeaksOnBadCommand, Server.SessionLeakExample, Server.SessionLeakUnhashableExample | Server.SessionReleasing |

=== FILE: app.dfy ===
/**
 * client/src/App.jsx: the application state, the socket handlers installed
 * once at mount, the effect keyed on window, socket and live flag, the live
 * toggle, house selection, and the notification guard.
 *
 * React re-renders are explicit: `Dispatch` runs a handler and then, when a
 * dependency of the effect changed, one run of the effect. Which window the
 * message handler filters on is a parameter: `Registered` is the code as
 * written, `Current` the corrected handler.
 */
module App {
  import opened Base
  import opened Entries
  import opened Houses
  import opened Wire
  import opened Reconcile

  datatype AppState = AppState(
    housePoints: Points,
    timeWindow: Window,
    isLive: bool,
    socket: Option<SocketId>,
    latestEvent: Option<Event>,
    selectedHouse: Option<string>)

  function Init(): (s: AppState) {
    AppState(InitialHousePoints, AllTime, false, None, None, None)
  }

  /** At mount every house is at zero, the window is all-time, nothing is live, connected, received or selected. */
  lemma InitialState()
    ensures forall h: House :: Lookup(Init().housePoints, Key(h)) == Some(0)
    ensures WindowId(Init().timeWindow) == "all"
    ensures !Init().isLive && Init().socket.None? && Init().latestEvent.None? && Init().selectedHouse.None?
  {
    InitialPointsAreZero();
  }

  /**
   * The window the socket handlers read: they are installed by an effect
   * that runs once, at mount, and so see the initial window forever.
   */
  const RegisteredWindow: Window := Init().timeWindow

  function ViewOf(s: AppState): (v: View) {
    View(s.housePoints, s.latestEvent)
  }

  function WithView(s: AppState, v: View): (s': AppState) {
    s.(housePoints := v.housePoints, latestEvent := v.latestEvent)
  }

  /** `onopen`: publish the socket and request points for the window the handler captured. */
  function OnOpen(s: AppState, ws: SocketId): (r: (AppState, seq<Action>))
    ensures r.0.socket == Some(ws)
    ensures r.0 == s.(socket := Some(ws))
    ensures r.1 == [GetPoints("all")]
  {
    (s.(socket := Some(ws)), [GetPoints(WindowId(RegisteredWindow))])
  }

  /**
   * `onmessage` as written: the snapshot for the captured all-time window
   * replaces the points, the event becomes the latest event, and an
   * unparseable payload throws before any state is set.
   */
  function Receive(s: AppState, msg: Inbound): (s': AppState)
    ensures SnapshotFor(msg, "all").Some? ==> s'.housePoints == SnapshotFor(msg, "all").value
    ensures SnapshotFor(msg, "all").None? ==> s'.housePoints == s.housePoints
    ensures EventOf(msg).Some? ==> s'.latestEvent == EventOf(msg)
    ensures EventOf(msg).None? ==> s'.latestEvent == s.latestEvent
    ensures s'.timeWindow == s.timeWindow && s'.isLive == s.isLive && s'.socket == s.socket
    ensures s'.selectedHouse == s.selectedHouse
  {
    WithView(s, Apply(ViewOf(s), RegisteredWindow, msg))
  }

  /** `onmessage` filtering on the window selected when the payload arrives. */
  function ReceiveCurrent(s: AppState, msg: Inbound): (s': AppState)
    ensures SnapshotFor(msg, WindowId(s.timeWindow)).Some? ==> s'.housePoints == SnapshotFor(msg, WindowId(s.timeWindow)).value
    ensures SnapshotFor(msg, WindowId(s.timeWindow)).None? ==> s'.housePoints == s.housePoints
    ensures EventOf(msg).Some? ==> s'.latestEvent == EventOf(msg)
    ensures EventOf(msg).None? ==> s'.latestEvent == s.latestEvent
    ensures s'.timeWindow == s.timeWindow && s'.isLive == s.isLive && s'.socket == s.socket
    ensures s'.selectedHouse == s.selectedHouse
  {
    WithView(s, Apply(ViewOf(s), s.timeWindow, msg))
  }

  /** `onclose`: drop the socket and force live updates off, sending nothing. */
  function OnClose(s: AppState): (s': AppState)
    ensures s'.socket.None? && !s'.isLive
    ensures s'.housePoints == s.housePoints && s'.timeWindow == s.timeWindow
    ensures s'.latestEvent == s.latestEvent && s'.selectedHouse == s.selectedHouse
  {
    s.(socket := None, isLive := false)
  }

  /** One run of the effect keyed on window, socket and live flag. */
  function Effect(s: AppState): (out: seq<Action>)
    ensures s.socket.None? ==> out == []
    ensures s.socket.Some? ==> |out| >= 1 && out[0] == GetPoints(WindowId(s.timeWindow))
    ensures s.socket.Some? && !s.isLive ==> |out| == 1
    ensures s.socket.Some? && s.isLive ==> out[1..] == [Stop, Start]
  {
    if s.socket.None? then []
    else [GetPoints(WindowId(s.timeWindow))] + (if s.isLive then [Stop, Start] else [])
  }

  /** `handleTimeWindowChange`: the selected window becomes `w` and nothing else changes. */
  function SelectWindow(s: AppState, w: Window): (s': AppState)
    ensures s'.timeWindow == w
    ensures s' == s.(timeWindow := s'.timeWindow)
  {
    s.(timeWindow := w)
  }

  /** `handleLiveUpdateToggle`: without a socket nothing happens; otherwise flip and send the matching command. */
  function Toggle(s: AppState): (r: (AppState, seq<Action>))
    ensures s.socket.None? ==> r.0 == s && r.1 == []
    ensures s.socket.Some? ==> r.0 == s.(isLive := !s.isLive)
    ensures s.socket.Some? && !s.isLive ==> r.1 == [Start]
    ensures s.socket.Some? && s.isLive ==> r.1 == [Stop]
  {
    if s.socket.None? then (s, [])
    else
      var live := !s.isLive;
      (s.(isLive := live), if live then [Start] else [Stop])
  }

  /** `handleHouseClick`: clicking the selected house clears the selection, any other house selects it. */
  function Click(s: AppState, house: string): (s': AppState)
    ensures s.selectedHouse == Some(house) ==> s'.selectedHouse.None?
    ensures s.selectedHouse != Some(house) ==> s'.selectedHouse == Some(house)
    ensures s' == s.(selectedHouse := s'.selectedHouse)
  {
    s.(selectedHouse := if s.selectedHouse == Some(house) then None else Some(house))
  }

  /**
   * Two identical clicks restore the selection exactly when the clicked
   * house was selected or nothing was; from another house they clear it.
   */
  lemma ClickTwice(s: AppState, house: string)
    ensures Click(Click(s, house), house) == s <==> s.selectedHouse.None? || s.selectedHouse == Some(house)
    ensures s.selectedHouse.Some? && s.selectedHouse != Some(house) ==> Click(Click(s, house), house).selectedHouse.None?
  {
  }

  /** The guard in front of the inline event notification. */
  predicate NotificationShown(s: AppState) {
    s.latestEvent.Some? && s.isLive
  }

  /** The inline notification needs live updates, so a close hides it and it never shows without a socket. */
  lemma NotificationNeedsLive(s: AppState)
    requires LiveNeedsSocket(s)
    ensures NotificationShown(s) ==> s.socket.Some?
    ensures !NotificationShown(OnClose(s))
    ensures !NotificationShown(Init())
  {
  }

  datatype Signal =
    | Opened(ws: SocketId)
    | Received(msg: Inbound)
    | Closed
    | WindowSelected(w: Window)
    | LiveToggled
    | HouseClicked(house: string)

  /** The window `onmessage` filters on: the one captured at mount (as written) or the selected one (corrected). */
  datatype HandlerWindow = Registered | Current

  /** The handler a signal invokes, with what it sends itself. */
  function Handle(s: AppState, sig: Signal, hw: HandlerWindow): (r: (AppState, seq<Action>)) {
    match sig
    case Opened(ws) => OnOpen(s, ws)
    case Received(msg) => (if hw.Registered? then Receive(s, msg) else ReceiveCurrent(s, msg), [])
    case Closed => (OnClose(s), [])
    case WindowSelected(w) => (SelectWindow(s, w), [])
    case LiveToggled => Toggle(s)
    case HouseClicked(h) => (Click(s, h), [])
  }

  /** Whether a dependency of the effect changed. */
  predicate DepsChanged(s: AppState, s': AppState) {
    s.timeWindow != s'.timeWindow || s.socket != s'.socket || s.isLive != s'.isLive
  }

  /** Live updates are only ever on while a socket is held. */
  predicate LiveNeedsSocket(s: AppState) {
    s.isLive ==> s.socket.Some?
  }

  /**
   * A signal: its handler, then the re-render, which re-runs the effect if a
   * dependency changed. What goes out on the socket, signal by signal:
   * opening sends the captured all-time request and then the effect's
   * request for the current window; payloads, closes and house clicks send
   * nothing; a new window is requested, followed by stop and start when
   * live; the toggle's own command is followed by the effect's re-run; and
   * without a socket nothing but an open sends anything.
   */
  function Dispatch(s: AppState, sig: Signal, hw: HandlerWindow): (r: (AppState, seq<Action>))
    ensures LiveNeedsSocket(s) ==> LiveNeedsSocket(r.0)
    ensures s.socket.None? && !sig.Opened? ==> r.1 == []
    ensures sig.Opened? && s.socket.None? ==>
      r.0.socket == Some(sig.ws)
      && r.1 == [GetPoints("all"), GetPoints(WindowId(s.timeWindow))] + (if s.isLive then [Stop, Start] else [])
    ensures sig.Received? || sig.Closed? || sig.HouseClicked? ==> r.1 == []
    ensures sig.Received? && hw.Registered? ==> r.0 == Receive(s, sig.msg)
    ensures sig.Received? && hw.Current? ==> r.0 == ReceiveCurrent(s, sig.msg)
    ensures sig.Closed? ==> r.0.socket.None? && !r.0.isLive
    ensures sig.WindowSelected? ==> r.0.timeWindow == sig.w
    ensures sig.WindowSelected? && sig.w == s.timeWindow ==> r.1 == []
    ensures sig.WindowSelected? && sig.w != s.timeWindow && s.socket.Some? ==>
      r.1 == [GetPoints(WindowId(sig.w))] + (if s.isLive then [Stop, Start] else [])
    ensures sig.LiveToggled? && s.socket.Some? ==>
      r.0.isLive == !s.isLive
      && r.1 == if s.isLive then [Stop, GetPoints(WindowId(s.timeWindow))]
                else [Start, GetPoints(WindowId(s.timeWindow)), Stop, Start]
  {
    var (s', sent) := Handle(s, sig, hw);
    (s', sent + if DepsChanged(s, s') then Effect(s') else [])
  }

  /** A sequence of signals, with everything sent, in order. */
  function Run(s: AppState, sigs: seq<Signal>, hw: HandlerWindow): (r: (AppState, seq<Action>))
    decreases |sigs|
  {
    if sigs == [] then (s, [])
    else
      var (s1, out1) := Dispatch(s, sigs[0], hw);
      var (s2, out2) := Run(s1, sigs[1..], hw);
      (s2, out1 + out2)
  }

  /**
   * While disconnected, no signal other than an open sends anything or turns
   * live updates on: after a close, nothing goes out until a new socket opens.
   */
  lemma {:induction false} SilentUntilOpen(s: AppState, sigs: seq<Signal>, hw: HandlerWindow)
    requires s.socket.None? && !s.isLive
    requires forall i :: 0 <= i < |sigs| ==> !sigs[i].Opened?
    ensures Run(s, sigs, hw).1 == []
    ensures Run(s, sigs, hw).0.socket.None? && !Run(s, sigs, hw).0.isLive
    decreases |sigs|
  {
    if sigs != [] {
      var s1 := Dispatch(s, sigs[0], hw).0;
      assert Dispatch(s, sigs[0], hw).1 == [];
      SilentUntilOpen(s1, sigs[1..], hw);
    }
  }

  /**
   * As written, the handler ignores the reply to the request the effect
   * sends for any window other than all-time, so switching windows never
   * changes the displayed points.
   */
  lemma StaleFilterDropsReply(s: AppState, snapshot: Points)
    requires s.socket.Some? && s.timeWindow != RegisteredWindow
    ensures Effect(s)[0] == GetPoints(WindowId(s.timeWindow))
    ensures Receive(s, Message(Some(map[WindowId(s.timeWindow) := snapshot]), None)) == s
  {
  }

  /**
   * A concrete instance: connected on the five-minute window, the reply
   * carrying 7 points for Gryff leaves Gryff at 0 as written, and shows 7
   * with the corrected handler.
   */
  lemma StaleFilterExample()
    ensures var s := Init().(socket := Some(1), timeWindow := FiveMin);
      var reply := Received(Message(Some(map["5m" := [Entry("Gryff", 7)]]), None));
      && Lookup(Dispatch(s, reply, Registered).0.housePoints, "Gryff") == Some(0)
      && Lookup(Dispatch(s, reply, Current).0.housePoints, "Gryff") == Some(7)
  {
  }

  /** Filtering on the current window, the reply to the effect's request replaces the points. */
  lemma CurrentFilterAppliesReply(s: AppState, snapshot: Points)
    requires s.socket.Some?
    ensures ReceiveCurrent(s, Message(Some(map[WindowId(s.timeWindow) := snapshot]), None)).housePoints == snapshot
    ensures ReceiveCurrent(s, Message(Some(map[WindowId(s.timeWindow) := snapshot]), None)).latestEvent == s.latestEvent
  {
  }
}

=== FILE: base.dfy ===
/** Optional values and results shared by every module of the model. */
module Base {

  /** A value that may be absent: `null`/`undefined` on the client, `None` on the server. */
  datatype Option<+T> = None | Some(value: T)

  /** The outcome of an operation that can raise or reject. */
  datatype Result<+T, +E> = Success(value: T) | Failure(error: E)
}

=== FILE: chart_utils.dfy ===
/** client/src/utils/chartUtils.js: chart rows from a points object, and the name-to-key inverse. */
module ChartUtils {
  import opened Base
  import opened Entries
  import opened Houses

  /** One chart row; `name` is None where the JavaScript value is undefined. */
  datatype Row = Row(name: Option<string>, points: int, house: string)

  /** `HOUSE_NAMES[key]`. */
  function NameOf(key: string): (name: Option<string>) {
    if key in HouseNames then Some(HouseNames[key]) else None
  }

  /** One row per entry, in entry order, carrying the entry's key, value and display name. */
  function FormatChartData(p: Points): (rows: seq<Row>)
    ensures |rows| == |p|
    ensures forall i :: 0 <= i < |p| ==> rows[i].house == p[i].key && rows[i].points == p[i].points
    ensures forall i :: 0 <= i < |p| ==> rows[i].name == NameOf(p[i].key)
  {
    seq(|p|, i requires 0 <= i < |p| => Row(NameOf(p[i].key), p[i].points, p[i].key))
  }

  /** The first of `keys` whose display name is `name`. */
  function FindKey(keys: seq<string>, name: string): (r: Option<string>)
    ensures r.Some? ==> r.value in keys && r.value in HouseNames && HouseNames[r.value] == name
    ensures r.None? ==> forall k :: k in keys && k in HouseNames ==> HouseNames[k] != name
    decreases |keys|
  {
    if keys == [] then None
    else if keys[0] in HouseNames && HouseNames[keys[0]] == name then Some(keys[0])
    else FindKey(keys[1..], name)
  }

  /** `getHouseKeyFromName`: the key whose display name is `name`, or None (undefined). */
  function GetHouseKeyFromName(name: string): (r: Option<string>)
    ensures r.Some? ==> r.value in HouseNames && HouseNames[r.value] == name
    ensures r.None? <==> name !in HouseNames.Values
  {
    assert forall k :: k in HouseNames ==> k in HouseKeys;
    FindKey(HouseKeys, name)
  }

  /** The lookup inverts the name table on every house key. */
  lemma NameKeyRoundTrip()
    ensures forall k :: k in HouseNames ==> GetHouseKeyFromName(HouseNames[k]) == Some(k)
  {
    HouseNamesInjective();
    HouseConstantsShareKeys();
  }

  /** When the entries are houses, every row's name maps back to the row's house. */
  lemma RowNamesInvert(p: Points)
    requires forall i :: 0 <= i < |p| ==> IsHouseKey(p[i].key)
    ensures forall r :: r in FormatChartData(p) ==> r.name.Some? && GetHouseKeyFromName(r.name.value) == Some(r.house)
  {
    HouseConstantsShareKeys();
    NameKeyRoundTrip();
  }
}

=== FILE: entries.dfy ===
/**
 * A house-points object: a plain JavaScript object (or Python dict) whose
 * string keys map to integer point totals. Property order matters to
 * `Object.entries`, so the object is an ordered sequence of entries.
 */
module Entries {
  import opened Base

  datatype Entry = Entry(key: string, points: int)

  type Points = seq<Entry>

  /** The keys of an object, in iteration order. */
  function Keys(p: Points): (ks: seq<string>)
    ensures |ks| == |p|
    ensures forall i :: 0 <= i < |p| ==> ks[i] == p[i].key
  {
    if p == [] then [] else [p[0].key] + Keys(p[1..])
  }

  /** No key occurs twice, as in any object or dict. */
  predicate DistinctKeys(p: Points) {
    forall i, j :: 0 <= i < j < |p| ==> p[i].key != p[j].key
  }

  /** Property read `p[k]`: the value of the first entry with key `k`, or None (undefined). */
  function Lookup(p: Points, k: string): (r: Option<int>)
  {
    if p == [] then None
    else if p[0].key == k then Some(p[0].points)
    else Lookup(p[1..], k)
  }

  /**
   * Property write `p[k] = v`: an existing key keeps its position and takes
   * the new value; a new key is appended at the end.
   */
  function Assign(p: Points, k: string, v: int): (r: Points)
    ensures Lookup(r, k) == Some(v)
    ensures forall k' :: k' != k ==> Lookup(r, k') == Lookup(p, k')
    ensures Lookup(p, k).Some? ==> Keys(r) == Keys(p)
    ensures Lookup(p, k).None? ==> Keys(r) == Keys(p) + [k]
  {
    if p == [] then [Entry(k, v)]
    else if p[0].key == k then
      ConsFacts(Entry(k, v), p[1..]);
      ConsFacts(p[0], p[1..]);
      assert p == [p[0]] + p[1..];
      [Entry(k, v)] + p[1..]
    else
      var rest := Assign(p[1..], k, v);
      ConsFacts(p[0], rest);
      ConsFacts(p[0], p[1..]);
      assert p == [p[0]] + p[1..];
      [p[0]] + rest
  }

  /** Reading and listing an object that starts with entry `e`. */
  lemma ConsFacts(e: Entry, q: Points)
    ensures Keys([e] + q) == [e.key] + Keys(q)
    ensures forall k :: Lookup([e] + q, k) == if e.key == k then Some(e.points) else Lookup(q, k)
  {
    assert ([e] + q)[1..] == q;
  }
}

=== FILE: house_data_hook.dfy ===
/**
 * client/src/hooks/useHouseData.js: points and latest-event state fed by the
 * socket's messages, the `get_points` request effect, and the live-update
 * commands. Its message handler is re-registered whenever the window
 * changes, so it always filters on the current window.
 */
module HouseDataHook {
  import opened Base
  import opened Entries
  import opened Houses
  import opened Wire
  import opened Reconcile
  import opened WebSocketHook

  function Init(): (v: View) {
    View(InitialHousePoints, None)
  }

  /** The hook starts with every house at zero and no event. */
  lemma InitialView()
    ensures forall h: House :: Lookup(Init().housePoints, Key(h)) == Some(0)
    ensures Init().latestEvent.None?
  {
    InitialPointsAreZero();
  }

  /** The transport check both send sites perform. */
  predicate IsOpen(socket: Option<SocketId>, ready: ReadyState) {
    socket.Some? && ready == Open
  }

  /**
   * A payload reaching the hook: without a socket no handler is registered;
   * with one, the handler filters on the window current at registration,
   * which is the current window because a change re-registers it.
   */
  function Receive(v: View, socket: Option<SocketId>, timeWindow: Window, msg: Inbound): (v': View)
    ensures socket.None? || msg.Malformed? ==> v' == v
    ensures socket.Some? && SnapshotFor(msg, WindowId(timeWindow)).Some? ==> v'.housePoints == SnapshotFor(msg, WindowId(timeWindow)).value
    ensures socket.Some? && EventOf(msg).Some? ==> v'.latestEvent == EventOf(msg)
    ensures SnapshotFor(msg, WindowId(timeWindow)).None? ==> v'.housePoints == v.housePoints
    ensures EventOf(msg).None? ==> v'.latestEvent == v.latestEvent
  {
    if socket.None? then v else Apply(v, timeWindow, msg)
  }

  /** One run of the request effect. */
  function RequestPoints(socket: Option<SocketId>, ready: ReadyState, timeWindow: Window): (out: seq<Action>)
    ensures out != [] <==> IsOpen(socket, ready)
    ensures |out| <= 1
    ensures forall i :: 0 <= i < |out| ==> out[i] == GetPoints(WindowId(timeWindow))
  {
    if IsOpen(socket, ready) then [GetPoints(WindowId(timeWindow))] else []
  }

  /** The request effect's dependencies. */
  datatype Deps = Deps(socket: Option<SocketId>, timeWindow: Window)

  /** A render: the effect runs only when a dependency changed. */
  function Rerender(prev: Deps, next: Deps, ready: ReadyState): (out: seq<Action>)
    ensures out != [] <==> prev != next && IsOpen(next.socket, ready)
    ensures |out| <= 1
    ensures forall i :: 0 <= i < |out| ==> out[i] == GetPoints(WindowId(next.timeWindow))
  {
    if prev != next then RequestPoints(next.socket, ready, next.timeWindow) else []
  }

  function StartLiveUpdates(socket: Option<SocketId>, ready: ReadyState): (out: seq<Action>)
    ensures out != [] <==> IsOpen(socket, ready)
    ensures |out| <= 1
    ensures forall i :: 0 <= i < |out| ==> out[i] == Start
  {
    if IsOpen(socket, ready) then [Start] else []
  }

  function StopLiveUpdates(socket: Option<SocketId>, ready: ReadyState): (out: seq<Action>)
    ensures out != [] <==> IsOpen(socket, ready)
    ensures |out| <= 1
    ensures forall i :: 0 <= i < |out| ==> out[i] == Stop
  {
    if IsOpen(socket, ready) then [Stop] else []
  }

  /** No live state is kept: every call while open sends again. */
  lemma LiveCommandsRepeat(socket: Option<SocketId>, ready: ReadyState)
    requires IsOpen(socket, ready)
    ensures StartLiveUpdates(socket, ready) + StartLiveUpdates(socket, ready) == [Start, Start]
    ensures StopLiveUpdates(socket, ready) + StopLiveUpdates(socket, ready) == [Stop, Stop]
  {
  }

  /**
   * After a window switch the hook applies the reply to the request it just
   * sent: the reply keyed by the new window replaces the points.
   */
  lemma SwitchThenReplyApplied(v: View, ws: SocketId, prior: Window, w: Window, snapshot: Points)
    requires prior != w
    ensures Rerender(Deps(Some(ws), prior), Deps(Some(ws), w), Open) == [GetPoints(WindowId(w))]
    ensures Receive(v, Some(ws), w, Message(Some(map[WindowId(w) := snapshot]), None)).housePoints == snapshot
  {
  }
}

=== FILE: houses.dfy ===
/**
 * The closed sets of houses and time windows, and the house-keyed display
 * constants of the client (client/src/constants/houseData.js).
 */
module Houses {
  import opened Base
  import opened Entries

  datatype House = Gryff | Slyth | Raven | Huff

  /** The object key that stands for a house everywhere on the wire and in the client. */
  function Key(h: House): (k: string)
    ensures ParseHouse(k) == Some(h)
  {
    match h
    case Gryff => "Gryff"
    case Slyth => "Slyth"
    case Raven => "Raven"
    case Huff => "Huff"
  }

  /** The house a key stands for, if any. */
  function ParseHouse(k: string): (r: Option<House>)
    ensures r.Some? ==> k == "Gryff" || k == "Slyth" || k == "Raven" || k == "Huff"
    ensures r.None? ==> k != "Gryff" && k != "Slyth" && k != "Raven" && k != "Huff"
  {
    if k == "Gryff" then Some(Gryff)
    else if k == "Slyth" then Some(Slyth)
    else if k == "Raven" then Some(Raven)
    else if k == "Huff" then Some(Huff)
    else None
  }

  /** Declaration order of the keys in every house-keyed constant. */
  const HouseKeys: seq<string> := ["Gryff", "Slyth", "Raven", "Huff"]

  const HouseNames: map<string, string> := map[
    "Gryff" := "Gryffindor",
    "Slyth" := "Slytherin",
    "Raven" := "Ravenclaw",
    "Huff" := "Hufflepuff"]

  const HouseDescriptions: map<string, string> := map[
    "Gryff" := "Known for bravery, daring, nerve, and chivalry. Gryffindor values courage and determination above all.",
    "Slyth" := "Values ambition, leadership, cunning, determination, and resourcefulness. Slytherins are known for their strategic minds.",
    "Raven" := "Values intelligence, knowledge, curiosity, creativity and wit. Ravenclaws are known for their wisdom and learning.",
    "Huff" := "Values hard work, dedication, patience, loyalty, and fair play. Hufflepuffs are known for their strong moral compass."]

  datatype Palette = Palette(primary: string, text: string, bg: string, border: string)

  const HouseColors: map<string, Palette> := map[
    "Gryff" := Palette("#740001", "text-gryffindor-primary", "bg-gryffindor-primary/10", "border-gryffindor-primary"),
    "Slyth" := Palette("#1A472A", "text-slytherin-primary", "bg-slytherin-primary/10", "border-slytherin-primary"),
    "Raven" := Palette("#0E1A40", "text-ravenclaw-primary", "bg-ravenclaw-primary/10", "border-ravenclaw-primary"),
    "Huff" := Palette("#FFD800", "text-hufflepuff-primary", "bg-hufflepuff-primary/10", "border-hufflepuff-primary")]

  const HouseIcons: map<string, string> := map[
    "Gryff" := "\U{1F981}",
    "Slyth" := "\U{1F40D}",
    "Raven" := "\U{1F985}",
    "Huff" := "\U{1F9A1}"]

  /** Every house at zero, in declaration order. */
  const InitialHousePoints: Points := [Entry("Gryff", 0), Entry("Slyth", 0), Entry("Raven", 0), Entry("Huff", 0)]

  /** The category list the backend zero-initialises its totals with and draws records from. */
  const BackendCategories: seq<string> := ["Gryff", "Slyth", "Raven", "Huff"]

  /** The four house keys as a set. */
  ghost predicate IsHouseKey(k: string) {
    ParseHouse(k).Some?
  }

  /** Each house-keyed constant has exactly the four house keys. */
  lemma HouseConstantsShareKeys()
    ensures forall k :: k in HouseNames <==> IsHouseKey(k)
    ensures forall k :: k in HouseDescriptions <==> IsHouseKey(k)
    ensures forall k :: k in HouseColors <==> IsHouseKey(k)
    ensures forall k :: k in HouseIcons <==> IsHouseKey(k)
    ensures forall k :: k in Keys(InitialHousePoints) <==> IsHouseKey(k)
    ensures forall h: House :: Key(h) in HouseKeys
    ensures forall i :: 0 <= i < |HouseKeys| ==> IsHouseKey(HouseKeys[i])
    ensures DistinctKeys(InitialHousePoints)
  {
    assert Keys(InitialHousePoints) == HouseKeys;
  }

  /** No two houses share a display name. */
  lemma HouseNamesInjective()
    ensures forall k1, k2 :: k1 in HouseNames && k2 in HouseNames && HouseNames[k1] == HouseNames[k2] ==> k1 == k2
  {
  }

  /** The initial points are zero for every house. */
  lemma InitialPointsAreZero()
    ensures forall h: House :: Lookup(InitialHousePoints, Key(h)) == Some(0)
    ensures |InitialHousePoints| == 4
  {
    forall h: House ensures Lookup(InitialHousePoints, Key(h)) == Some(0) {
      match h
      case Gryff =>
      case Slyth =>
      case Raven =>
      case Huff =>
    }
  }

  /** The client's house keys are exactly the backend's categories, in the same order. */
  lemma ClientKeysMatchBackendCategories()
    ensures BackendCategories == HouseKeys
    ensures Keys(InitialHousePoints) == BackendCategories
  {
  }

  datatype Window = FiveMin | OneHour | AllTime

  /** The wire id of a time window. */
  function WindowId(w: Window): (id: string)
    ensures ParseWindow(id) == Some(w)
  {
    match w
    case FiveMin => "5m"
    case OneHour => "1h"
    case AllTime => "all"
  }

  /** The window a wire id names, if any. */
  function ParseWindow(id: string): (r: Option<Window>)
    ensures r.Some? <==> id in {"5m", "1h", "all"}
  {
    if id == "5m" then Some(FiveMin)
    else if id == "1h" then Some(OneHour)
    else if id == "all" then Some(AllTime)
    else None
  }

  datatype WindowOption = WindowOption(id: string, caption: string, icon: string)

  /** The selectable windows, in button order. */
  const TimeWindows: seq<WindowOption> := [
    WindowOption("5m", "Last 5 Minutes", "\U{23F1}\U{FE0F}"),
    WindowOption("1h", "Last Hour", "\U{1F550}"),
    WindowOption("all", "All Time", "\U{1F4DC}")]

  /** The window ids are exactly 5m, 1h and all, in that order, pairwise distinct, and each parses back to its window. */
  lemma TimeWindowIdsDistinct()
    ensures |TimeWindows| == 3
    ensures TimeWindows[0].id == WindowId(FiveMin)
    ensures TimeWindows[1].id == WindowId(OneHour)
    ensures TimeWindows[2].id == WindowId(AllTime)
    ensures forall i, j :: 0 <= i < j < |TimeWindows| ==> TimeWindows[i].id != TimeWindows[j].id
    ensures forall i :: 0 <= i < |TimeWindows| ==> ParseWindow(TimeWindows[i].id).Some?
  {
  }
}

=== FILE: notification.dfy ===
/**
 * The visibility state machine of client/src/components/EventNotification.jsx:
 * a `show` flag, a hide timer scheduled by each effect run whose inputs are
 * both truthy and cleared by the next run or by unmounting, the close button,
 * and the render guard. Wall-clock time is replaced by explicit expiry steps.
 */
module Notification {
  import opened Base
  import opened Wire

  /** The delay of the hide timer, in milliseconds. */
  const HideDelayMs: nat := 5000

  type TimerId = nat

  datatype Props = Props(latestEvent: Option<Event>, isVisible: bool)

  /**
   * `show`; the hide timers that are scheduled and have neither fired nor
   * been cleared; the timer the latest effect run scheduled, which its
   * cleanup clears; and the next fresh timer id.
   */
  datatype Note = Note(show: bool, pending: set<TimerId>, scheduled: Option<TimerId>, nextTimer: TimerId)

  function Init(): (n: Note) {
    Note(false, {}, None, 0)
  }

  /** Both effect inputs are truthy. */
  predicate Triggered(p: Props) {
    p.latestEvent.Some? && p.isVisible
  }

  /** The render guard: something is drawn only for an event that is visible and shown. */
  predicate Rendered(p: Props, n: Note) {
    p.latestEvent.Some? && p.isVisible && n.show
  }

  /** Every pending timer is the one the latest run scheduled, and ids are fresh. */
  ghost predicate Valid(n: Note) {
    && (forall t :: t in n.pending ==> n.scheduled == Some(t))
    && (n.scheduled.Some? ==> n.scheduled.value < n.nextTimer)
  }

  /** The cleanup the previous effect run returned, if it scheduled a timer. */
  function Cleanup(n: Note): (n': Note)
    ensures n'.show == n.show && n'.scheduled.None? && n'.nextTimer == n.nextTimer
    ensures n'.pending <= n.pending
    ensures n.scheduled.Some? ==> n.scheduled.value !in n'.pending
  {
    if n.scheduled.Some? then n.(pending := n.pending - {n.scheduled.value}, scheduled := None) else n
  }

  /**
   * The effect re-run after `latestEvent` or `isVisible` changed: clear the
   * previous timer, then show and schedule one fresh timer if both are truthy.
   */
  function EffectRun(n: Note, p: Props): (n': Note)
    ensures Triggered(p) ==> n'.show && n'.scheduled == Some(n.nextTimer) && n.nextTimer in n'.pending
    ensures !Triggered(p) ==> n'.show == n.show && n'.scheduled.None? && n'.pending <= n.pending
    ensures n.scheduled.Some? && n.scheduled.value != n.nextTimer ==> n.scheduled.value !in n'.pending
  {
    var c := Cleanup(n);
    if Triggered(p) then Note(true, c.pending + {n.nextTimer}, Some(n.nextTimer), n.nextTimer + 1) else c
  }

  /** Timer `t` fires; a cleared or already-fired timer never does. */
  function Expire(n: Note, t: TimerId): (n': Note)
    ensures t in n.pending ==> !n'.show && t !in n'.pending
    ensures t !in n.pending ==> n' == n
  {
    if t in n.pending then n.(show := false, pending := n.pending - {t}) else n
  }

  /** The close button hides at once; the pending timer stays scheduled. */
  function Close(n: Note): (n': Note)
    ensures !n'.show && n'.pending == n.pending && n'.scheduled == n.scheduled
  {
    n.(show := false)
  }

  /** Unmounting runs the last cleanup. */
  function Unmount(n: Note): (n': Note)
    ensures Valid(n) ==> n'.pending == {}
  {
    Cleanup(n)
  }

  datatype Step = PropsChanged(p: Props) | Fired(t: TimerId) | CloseClicked | Unmounted

  function Apply(n: Note, s: Step): (n': Note) {
    match s
    case PropsChanged(p) => EffectRun(n, p)
    case Fired(t) => Expire(n, t)
    case CloseClicked => Close(n)
    case Unmounted => Unmount(n)
  }

  function Run(n: Note, steps: seq<Step>): (n': Note)
    decreases |steps|
  {
    if steps == [] then n else Run(Apply(n, steps[0]), steps[1..])
  }

  /** The mounted component is valid: nothing is shown and no timer is pending. */
  lemma InitValid()
    ensures Valid(Init())
    ensures !Init().show && Init().pending == {} && Init().scheduled.None?
  {
  }

  /** A valid state has at most one pending hide timer. */
  lemma AtMostOnePending(n: Note)
    requires Valid(n)
    ensures |n.pending| <= 1
  {
    if n.pending != {} {
      assert n.pending == {n.scheduled.value};
    }
  }

  /** Every step keeps the state valid. */
  lemma StepValid(n: Note, s: Step)
    requires Valid(n)
    ensures Valid(Apply(n, s))
  {
  }

  /** From mount, any interleaving of prop changes, expiries, closes and unmounts leaves at most one timer pending. */
  lemma {:induction false} RunValid(n: Note, steps: seq<Step>)
    requires Valid(n)
    ensures Valid(Run(n, steps))
    ensures |Run(n, steps).pending| <= 1
    decreases |steps|
  {
    if steps == [] {
      AtMostOnePending(n);
    } else {
      StepValid(n, steps[0]);
      RunValid(Apply(n, steps[0]), steps[1..]);
    }
  }

  /**
   * A new event restarts the countdown: after the re-run the notification
   * renders, no older timer can hide it, and only the fresh timer does.
   */
  lemma NewEventResetsTimer(n: Note, p: Props, t: TimerId)
    requires Valid(n)
    requires Triggered(p)
    ensures Rendered(p, EffectRun(n, p))
    ensures t != n.nextTimer ==> Expire(EffectRun(n, p), t) == EffectRun(n, p)
    ensures !Rendered(p, Expire(EffectRun(n, p), n.nextTimer))
  {
  }

  /** With `isVisible` false the effect leaves `show` alone, yet nothing renders. */
  lemma HiddenWhenInvisible(n: Note, p: Props)
    requires !p.isVisible
    ensures EffectRun(n, p).show == n.show
    ensures !Rendered(p, EffectRun(n, p))
  {
  }

  /** Closing hides the notification until the next triggering re-run. */
  lemma CloseHides(n: Note, p: Props)
    ensures !Rendered(p, Close(n))
  {
  }
}

=== FILE: protocol.dfy ===
/**
 * End-to-end properties of the client and the backend together: what a
 * request becomes once the server has served it and the client has
 * reconciled the reply, and what a stream tick does to every client.
 */
module Protocol {
  import opened Base
  import Entries
  import opened Houses
  import opened Wire
  import opened Reconcile
  import opened Store
  import opened Server
  import HouseDataHook
  import WebSocketHook
  import App

  /**
   * The hook's request for its window, served by the websocket dispatch and
   * reconciled by the hook, leaves exactly that window's totals on screen.
   */
  lemma HookRequestRoundTrip(v: View, ws: SocketId, w: Window, m: Manager, t: Table, now: int, taskId: nat)
    ensures HouseDataHook.RequestPoints(Some(ws), WebSocketHook.Open, w) == [GetPoints(WindowId(w))]
    ensures var r := HandleCommand(m, t, now, taskId, Encode(GetPoints(WindowId(w))));
      && r.Success? && r.value.0 == m && r.value.1.Some?
      && HouseDataHook.Receive(v, Some(ws), w, ToClient(r.value.1.value)).housePoints == PointsByWindow(t, WindowId(w), now)
      && HouseDataHook.Receive(v, Some(ws), w, ToClient(r.value.1.value)).latestEvent == v.latestEvent
  {
  }

  /**
   * A stream tick reaches every client whatever its window: its points
   * become that window's totals after the ingest, and the record becomes
   * the latest event.
   */
  lemma StreamTickReconciled(v: View, w: Window, t: Table, now: int, e: Event)
    requires !HasId(t, e.id)
    ensures var msg := StreamTick(t, now, e).value.1;
      && Apply(v, w, msg).housePoints == PointsByWindow(t + [e], WindowId(w), now)
      && Apply(v, w, msg).latestEvent == Some(e)
  {
    var totals := AllTotals(t + [e], now);
    assert StreamTick(t, now, e).value.1 == Message(Some(totals), Some(e));
    BroadcastReconciled(v, w, totals, e);
  }

  /** A broadcast carrying every valid window's totals sets the client's points to its own window's entry. */
  lemma BroadcastReconciled(v: View, w: Window, totals: map<string, Entries.Points>, e: Event)
    requires totals.Keys == ValidWindows
    ensures Apply(v, w, Message(Some(totals), Some(e))).housePoints == totals[WindowId(w)]
    ensures Apply(v, w, Message(Some(totals), Some(e))).latestEvent == Some(e)
  {
    assert WindowId(w) in ValidWindows;
  }

  /** Status replies carry neither totals nor an event, so the client state is unchanged. */
  lemma StatusRepliesIgnored(v: View, w: Window, status: string)
    ensures Apply(v, w, ToClient(Status(status))) == v
  {
  }

  /**
   * As written, App shows all-time totals on every stream tick, whichever
   * window is selected, while the current-window handler shows the
   * selected window's totals.
   */
  lemma AppStreamShowsAllTime(s: App.AppState, t: Table, now: int, e: Event)
    requires !HasId(t, e.id)
    ensures App.Receive(s, StreamTick(t, now, e).value.1).housePoints == PointsByWindow(t + [e], "all", now)
    ensures App.ReceiveCurrent(s, StreamTick(t, now, e).value.1).housePoints == PointsByWindow(t + [e], WindowId(s.timeWindow), now)
  {
    StreamTickReconciled(App.ViewOf(s), App.RegisteredWindow, t, now, e);
    StreamTickReconciled(App.ViewOf(s), s.timeWindow, t, now, e);
  }
}

=== FILE: reconcile.dfy ===
/**
 * The inbound-message reconciliation shared by the `onmessage` handler of
 * client/src/App.jsx and `handleMessage` of client/src/hooks/useHouseData.js:
 * the snapshot for the handler's window replaces the points wholesale, the
 * event becomes the latest event, and nothing else is kept.
 */
module Reconcile {
  import opened Base
  import opened Entries
  import opened Houses
  import opened Wire

  /** The client state a message can change. */
  datatype View = View(housePoints: Points, latestEvent: Option<Event>)

  /** The snapshot a message carries for window id `id`, if any. */
  function SnapshotFor(msg: Inbound, id: string): (snap: Option<Points>) {
    if msg.Message? && msg.totals.Some? && id in msg.totals.value then Some(msg.totals.value[id]) else None
  }

  /** The event a message carries, if any. */
  function EventOf(msg: Inbound): (ev: Option<Event>) {
    if msg.Message? then msg.event else None
  }

  /** Handle one inbound payload with a handler that filters on window `filter`. */
  function Apply(v: View, filter: Window, msg: Inbound): (v': View)
    ensures SnapshotFor(msg, WindowId(filter)).Some? ==> v'.housePoints == SnapshotFor(msg, WindowId(filter)).value
    ensures SnapshotFor(msg, WindowId(filter)).None? ==> v'.housePoints == v.housePoints
    ensures EventOf(msg).Some? ==> v'.latestEvent == EventOf(msg)
    ensures EventOf(msg).None? ==> v'.latestEvent == v.latestEvent
    ensures msg.Malformed? ==> v' == v
  {
    match msg
    case Malformed => v
    case Message(totals, event) =>
      var points := if totals.Some? && WindowId(filter) in totals.value then totals.value[WindowId(filter)] else v.housePoints;
      var latest := if event.Some? then event else v.latestEvent;
      View(points, latest)
  }

  /** Handle a sequence of payloads in arrival order. */
  function ApplyAll(v: View, filter: Window, msgs: seq<Inbound>): (v': View)
    decreases |msgs|
  {
    if msgs == [] then v else ApplyAll(Apply(v, filter, msgs[0]), filter, msgs[1..])
  }

  /** The snapshot for `id` in the most recent payload that carries one. */
  function LastSnapshot(msgs: seq<Inbound>, id: string): (snap: Option<Points>)
    decreases |msgs|
  {
    if msgs == [] then None
    else if SnapshotFor(msgs[|msgs| - 1], id).Some? then SnapshotFor(msgs[|msgs| - 1], id)
    else LastSnapshot(msgs[..|msgs| - 1], id)
  }

  /** The event in the most recent payload that carries one. */
  function LastEvent(msgs: seq<Inbound>): (ev: Option<Event>)
    decreases |msgs|
  {
    if msgs == [] then None
    else if EventOf(msgs[|msgs| - 1]).Some? then EventOf(msgs[|msgs| - 1])
    else LastEvent(msgs[..|msgs| - 1])
  }

  /** Handling one more payload extends the fold by one step. */
  lemma {:induction false} ApplyAllSnoc(v: View, filter: Window, msgs: seq<Inbound>, m: Inbound)
    ensures ApplyAll(v, filter, msgs + [m]) == Apply(ApplyAll(v, filter, msgs), filter, m)
    decreases |msgs|
  {
    if msgs == [] {
      assert [m][1..] == [];
    } else {
      assert (msgs + [m])[1..] == msgs[1..] + [m];
      ApplyAllSnoc(Apply(v, filter, msgs[0]), filter, msgs[1..], m);
    }
  }

  /**
   * Last snapshot wins: after any sequence of payloads the points are the
   * snapshot for the handler's window in the latest payload carrying one
   * (never a merge of two), or the starting points if none did; likewise the
   * latest event.
   */
  lemma {:induction false} LastSnapshotWins(v: View, filter: Window, msgs: seq<Inbound>)
    ensures ApplyAll(v, filter, msgs).housePoints
         == (var last := LastSnapshot(msgs, WindowId(filter)); if last.Some? then last.value else v.housePoints)
    ensures ApplyAll(v, filter, msgs).latestEvent
         == (var last := LastEvent(msgs); if last.Some? then last else v.latestEvent)
    decreases |msgs|
  {
    if msgs != [] {
      var init, m := msgs[..|msgs| - 1], msgs[|msgs| - 1];
      assert msgs == init + [m];
      ApplyAllSnoc(v, filter, init, m);
      LastSnapshotWins(v, filter, init);
    }
  }

  /**
   * The two fields are handled independently: a payload carrying both acts
   * as its totals-only part followed by its event-only part, and a payload
   * carrying neither changes nothing.
   */
  lemma FieldsIndependent(v: View, filter: Window, totals: Option<map<string, Points>>, event: Option<Event>)
    ensures Apply(v, filter, Message(totals, event))
         == Apply(Apply(v, filter, Message(totals, None)), filter, Message(None, event))
    ensures Apply(v, filter, Message(None, None)) == v
  {
  }

  /**
   * No per-window cache: two payloads that agree on the handler's window and
   * on the event leave the same state, whatever they carry for other windows.
   */
  lemma OtherWindowsDiscarded(v: View, filter: Window, t1: map<string, Points>, t2: map<string, Points>, event: Option<Event>)
    requires WindowId(filter) in t1 <==> WindowId(filter) in t2
    requires WindowId(filter) in t1 ==> t1[WindowId(filter)] == t2[WindowId(filter)]
    ensures Apply(v, filter, Message(Some(t1), event)) == Apply(v, filter, Message(Some(t2), event))
  {
  }
}

=== FILE: server.dfy ===
/**
 * backend/main.py: the connection manager's list and streaming flag, the
 * message each stream tick broadcasts, the websocket command dispatch, and
 * the HTTP points endpoint with its window validation.
 */
module Server {
  import opened Base
  import opened Entries
  import opened Houses
  import opened Wire
  import opened Store

  /** The background stream task; `cancelled` records a `cancel()` call. */
  datatype StreamTask = StreamTask(id: nat, cancelled: bool)

  datatype Manager = Manager(connections: seq<SocketId>, running: bool, task: Option<StreamTask>)

  /** The module-level manager: no connections, the stream off, no task. */
  function Init(): (m: Manager)
    ensures m.connections == [] && !m.running && m.task.None?
  {
    Manager([], false, None)
  }

  /** `connect`: accept and append the socket. */
  function Connect(m: Manager, ws: SocketId): (m': Manager)
    ensures m'.connections == m.connections + [ws]
    ensures m'.running == m.running && m'.task == m.task
  {
    m.(connections := m.connections + [ws])
  }

  /** The position of the first occurrence of `x`. */
  function FirstIndex(xs: seq<SocketId>, x: SocketId): (i: nat)
    requires x in xs
    ensures i < |xs| && xs[i] == x && x !in xs[..i]
    decreases |xs|
  {
    if xs[0] == x then 0
    else
      var k := FirstIndex(xs[1..], x);
      assert xs[..k + 1] == [xs[0]] + xs[1..][..k];
      k + 1
  }

  /** `list.remove`: drop the first occurrence. */
  function RemoveFirst(xs: seq<SocketId>, x: SocketId): (ys: seq<SocketId>)
    requires x in xs
    ensures |ys| == |xs| - 1
    ensures multiset(ys) == multiset(xs) - multiset{x}
    ensures exists i :: 0 <= i < |xs| && xs[i] == x && x !in xs[..i] && ys == xs[..i] + xs[i + 1..]
  {
    var i := FirstIndex(xs, x);
    assert xs == xs[..i] + [x] + xs[i + 1..];
    xs[..i] + xs[i + 1..]
  }

  /** The ValueError `list.remove` raises for a socket that is not listed. */
  datatype ManagerError = NotListed(ws: SocketId)

  /** `disconnect`: remove one occurrence of the socket. */
  function Disconnect(m: Manager, ws: SocketId): (r: Result<Manager, ManagerError>)
    ensures r.Success? <==> ws in m.connections
    ensures r.Success? ==> multiset(r.value.connections) == multiset(m.connections) - multiset{ws}
    ensures r.Success? ==> |r.value.connections| == |m.connections| - 1
    ensures r.Success? ==> r.value.running == m.running && r.value.task == m.task
    ensures r.Failure? ==> r.error == NotListed(ws)
  {
    if ws in m.connections then Success(m.(connections := RemoveFirst(m.connections, ws))) else Failure(NotListed(ws))
  }

  /** `start_data_stream`: a no-op when already running; otherwise set the flag and create task `taskId`. */
  function StartStream(m: Manager, taskId: nat): (m': Manager)
    ensures m.running ==> m' == m
    ensures !m.running ==> m'.running && m'.task == Some(StreamTask(taskId, false))
    ensures m'.connections == m.connections
  {
    if m.running then m else m.(running := true, task := Some(StreamTask(taskId, false)))
  }

  /** `stop_data_stream`: clear the flag and cancel the current task, which stays recorded. */
  function StopStream(m: Manager): (m': Manager)
    ensures !m'.running && m'.connections == m.connections
    ensures m.task.Some? ==> m'.task == Some(m.task.value.(cancelled := true))
    ensures m.task.None? ==> m'.task.None?
  {
    m.(running := false, task := if m.task.Some? then Some(m.task.value.(cancelled := true)) else None)
  }

  /** Starting is idempotent, and a stop after any number of starts leaves the stream off for every connection. */
  lemma StartStopFlag(m: Manager, a: nat, b: nat)
    ensures StartStream(StartStream(m, a), b) == StartStream(m, a)
    ensures !StopStream(StartStream(m, a)).running
    ensures StopStream(StartStream(m, a)).connections == m.connections
  {
  }

  /** The window ids the HTTP endpoint accepts. */
  const ValidWindows: set<string> := {"5m", "1h", "all"}

  datatype HttpError = HttpError(status: nat, detail: string)

  /** `GET /points/{time_window}`. */
  function HttpGetPoints(t: Table, timeWindow: string, now: int): (r: Result<Points, HttpError>)
    ensures r.Failure? <==> timeWindow !in ValidWindows
    ensures r.Failure? ==> r.error.status == 400
    ensures r.Success? ==> r.value == PointsByWindow(t, timeWindow, now)
  {
    if timeWindow !in ValidWindows then Failure(HttpError(400, "Invalid time window. Use '5m', '1h', or 'all'"))
    else Success(PointsByWindow(t, timeWindow, now))
  }

  /** Every window the client can select passes validation. */
  lemma ClientWindowsValid(w: Window)
    ensures WindowId(w) in ValidWindows
  {
  }

  /** A received command: its `action` and `time_window` fields, or text that is not a JSON object. */
  datatype Command = Unparseable | Command(action: Option<string>, timeWindow: WindowField)

  /**
   * The `time_window` field of a command: missing, a hashable value written
   * as the JSON text it becomes as a key, or an array or object, which
   * cannot key a dict.
   */
  datatype WindowField = Absent | Text(id: string) | Unhashable

  /** A reply sent to the commanding socket alone. */
  datatype Reply = Status(status: string) | Totals(timeWindow: string, points: Points)

  /**
   * The exceptions that escape the endpoint loop: a command that is not a
   * JSON object, and a `get_points` whose window cannot key the reply dict.
   */
  datatype EndpointError = DecodeError | UnhashableKey

  /** Whether serving the command raises out of the endpoint loop. */
  predicate Raises(cmd: Command) {
    cmd.Unparseable? || (cmd.action == Some("get_points") && cmd.timeWindow.Unhashable?)
  }

  /** One pass of the endpoint loop: the manager after the command and the reply, if any. */
  function HandleCommand(m: Manager, t: Table, now: int, taskId: nat, cmd: Command): (r: Result<(Manager, Option<Reply>), EndpointError>)
    ensures r.Failure? <==> Raises(cmd)
    ensures cmd.Unparseable? ==> r == Failure(DecodeError)
    ensures r.Success? ==> r.value.0.connections == m.connections
    ensures cmd.Command? && cmd.action == Some("start") ==> r.value == (StartStream(m, taskId), Some(Status("started")))
    ensures cmd.Command? && cmd.action == Some("stop") ==> r.value == (StopStream(m), Some(Status("stopped")))
    ensures cmd.Command? && cmd.action == Some("get_points") && cmd.timeWindow.Unhashable? ==> r == Failure(UnhashableKey)
    ensures cmd.Command? && cmd.action == Some("get_points") && !cmd.timeWindow.Unhashable? ==>
      var w := if cmd.timeWindow.Text? then cmd.timeWindow.id else "all";
      r.value == (m, Some(Totals(w, PointsByWindow(t, w, now))))
    ensures cmd.Command? && cmd.action !in {Some("start"), Some("stop"), Some("get_points")} ==> r.value == (m, None)
  {
    match cmd
    case Unparseable => Failure(DecodeError)
    case Command(action, tw) =>
      if action == Some("start") then Success((StartStream(m, taskId), Some(Status("started"))))
      else if action == Some("stop") then Success((StopStream(m), Some(Status("stopped"))))
      else if action == Some("get_points") then
        match tw
        case Unhashable => Failure(UnhashableKey)
        case Absent => Success((m, Some(Totals("all", PointsByWindow(t, "all", now)))))
        case Text(w) => Success((m, Some(Totals(w, PointsByWindow(t, w, now)))))
      else Success((m, None))
  }

  /**
   * The websocket `get_points` does not validate its window: an unknown id
   * is answered with the all-time aggregation, keyed by the unknown id.
   */
  lemma WebsocketWindowUnvalidated(m: Manager, t: Table, now: int, taskId: nat, w: string)
    requires w !in ValidWindows
    ensures HandleCommand(m, t, now, taskId, Command(Some("get_points"), Text(w))).Success?
    ensures HandleCommand(m, t, now, taskId, Command(Some("get_points"), Text(w))).value.1 == Some(Totals(w, PointsByWindow(t, w, now)))
    ensures Filter(t, w, now) == Filter(t, "all", now) == t
    ensures HttpGetPoints(t, w, now).Failure?
  {
    UnknownWindowCountsAll(t, w, now);
    UnknownWindowCountsAll(t, "all", now);
  }

  /** Any window other than 5m and 1h selects every row. */
  lemma {:induction false} UnknownWindowCountsAll(t: Table, w: string, now: int)
    requires w != "5m" && w != "1h"
    ensures Filter(t, w, now) == t
    decreases |t|
  {
    if t != [] {
      UnknownWindowCountsAll(t[..|t| - 1], w, now);
      assert t == t[..|t| - 1] + [t[|t| - 1]];
    }
  }

  /** The encoding of a client action as the command the server reads. */
  function Encode(a: Action): (c: Command)
    ensures c.Command? && c.action.Some? && !Raises(c)
  {
    match a
    case GetPoints(w) => Command(Some("get_points"), Text(w))
    case Start => Command(Some("start"), Absent)
    case Stop => Command(Some("stop"), Absent)
  }

  /** The payload a reply becomes once the client parses it. */
  function ToClient(r: Reply): (msg: Inbound)
    ensures msg.Message? && msg.event.None?
    ensures r.Status? ==> msg.totals.None?
    ensures r.Totals? ==> msg.totals == Some(map[r.timeWindow := r.points])
  {
    match r
    case Status(_) => Message(None, None)
    case Totals(w, p) => Message(Some(map[w := p]), None)
  }

  /** The `totals` field of a broadcast: every window id the HTTP endpoint accepts, with its totals. */
  function AllTotals(t: Table, now: int): (totals: map<string, Points>)
    ensures totals.Keys == ValidWindows
    ensures forall w :: w in totals ==> totals[w] == PointsByWindow(t, w, now)
  {
    map w | w in ValidWindows :: PointsByWindow(t, w, now)
  }

  /**
   * One stream tick: ingest the record, then broadcast it with the totals of
   * all three windows computed after the ingest.
   */
  function StreamTick(t: Table, now: int, e: Event): (r: Result<(Table, Inbound), DbError>)
    ensures r.Success? <==> Ingest(t, e).Success?
    ensures r.Success? ==> r.value.0 == t + [e]
    ensures r.Success? ==> r.value.1 == Message(Some(AllTotals(t + [e], now)), Some(e))
  {
    match Ingest(t, e)
    case Failure(err) => Failure(err)
    case Success(t') => Success((t', Message(Some(AllTotals(t', now)), Some(e))))
  }

  /**
   * One client's session as written: accept the socket, serve the commands
   * in order, and on the disconnect that ends the input remove the socket.
   * A command that raises ends the session by an exception that is not a
   * disconnect, so the socket stays listed.
   */
  function Session(m: Manager, t: Table, now: int, taskId: nat, ws: SocketId, cmds: seq<Command>): (r: (Manager, seq<Reply>))
    ensures (forall c :: c in cmds ==> !Raises(c)) ==> multiset(r.0.connections) == multiset(m.connections)
    ensures (exists c :: c in cmds && Raises(c)) ==> r.0.connections == m.connections + [ws]
  {
    Serve(Connect(m, ws), t, now, taskId, ws, cmds, false)
  }

  /** As `Session`, but removing the socket on every exit path: every session leaves the list as it found it. */
  function SessionReleasing(m: Manager, t: Table, now: int, taskId: nat, ws: SocketId, cmds: seq<Command>): (r: (Manager, seq<Reply>))
    ensures multiset(r.0.connections) == multiset(m.connections)
  {
    assert multiset(m.connections + [ws]) - multiset{ws} == multiset(m.connections);
    Serve(Connect(m, ws), t, now, taskId, ws, cmds, true)
  }

  /**
   * The endpoint loop after `connect`; `releaseOnError` says whether the
   * error path also disconnects. The socket is removed once when the input
   * ends in a disconnect; as written, a command that raises ends the loop
   * with the list untouched.
   */
  function Serve(m: Manager, t: Table, now: int, taskId: nat, ws: SocketId, cmds: seq<Command>, releaseOnError: bool): (r: (Manager, seq<Reply>))
    requires ws in m.connections
    ensures releaseOnError || (forall c :: c in cmds ==> !Raises(c)) ==>
      multiset(r.0.connections) == multiset(m.connections) - multiset{ws}
    ensures !releaseOnError && (exists c :: c in cmds && Raises(c)) ==> r.0.connections == m.connections
    decreases |cmds|
  {
    if cmds == [] then (Disconnect(m, ws).value, [])
    else
      assert cmds == [cmds[0]] + cmds[1..];
      match HandleCommand(m, t, now, taskId, cmds[0])
      case Failure(_) => (if releaseOnError then Disconnect(m, ws).value else m, [])
      case Success((m', reply)) =>
        var (m'', replies) := Serve(m', t, now, taskId + 1, ws, cmds[1..], releaseOnError);
        (m'', (if reply.Some? then [reply.value] else []) + replies)
  }

  /**
   * As written, a command that raises, wherever it comes in the session,
   * leaves the socket in the broadcast list.
   */
  lemma SessionLeaksOnBadCommand(m: Manager, t: Table, now: int, taskId: nat, ws: SocketId, cmds: seq<Command>, i: nat)
    requires i < |cmds| && Raises(cmds[i])
    ensures Session(m, t, now, taskId, ws, cmds).0.connections == m.connections + [ws]
  {
    assert cmds[i] in cmds;
  }

  /** A concrete leak: a client starts the stream and then sends `hello`; the stream runs on with the socket listed. */
  lemma SessionLeakExample()
    ensures var r := Session(Init(), [], 0, 0, 7, [Command(Some("start"), Absent), Unparseable]).0;
      r.connections == [7] && r.running
  {
  }

  /**
   * A second trigger: a client that starts the stream and then asks for
   * points with an array as the window stays listed, because the reply dict
   * cannot be keyed by it.
   */
  lemma SessionLeakUnhashableExample()
    ensures var r := Session(Init(), [], 0, 0, 7, [Command(Some("start"), Absent), Command(Some("get_points"), Unhashable)]).0;
      r.connections == [7] && r.running
  {
  }
}

=== FILE: store.dfy ===
/**
 * backend/database.py: the house_points table as a sequence of rows, event
 * ingestion under the primary key on `id`, and the per-window aggregation
 * that zero-initialises every house and then takes the grouped sums.
 * Timestamps are integer seconds and `now` is a parameter.
 */
module Store {
  import opened Base
  import opened Entries
  import opened Houses
  import opened Wire

  /** The rows of house_points, in insertion order. */
  type Table = seq<Event>

  /** The integrity error a duplicate primary key raises. */
  datatype DbError = DuplicateId(id: string)

  predicate HasId(t: Table, id: string) {
    exists i :: 0 <= i < |t| && t[i].id == id
  }

  /** Every id occurs at most once, as the primary key guarantees. */
  predicate UniqueIds(t: Table) {
    forall i, j :: 0 <= i < j < |t| ==> t[i].id != t[j].id
  }

  /** `ingest_event`: insert one row, or fail on a duplicate id. */
  function Ingest(t: Table, e: Event): (r: Result<Table, DbError>)
    ensures r.Success? <==> !HasId(t, e.id)
    ensures r.Success? ==> r.value == t + [e]
    ensures r.Failure? ==> r.error == DuplicateId(e.id)
  {
    if HasId(t, e.id) then Failure(DuplicateId(e.id)) else Success(t + [e])
  }

  /** Ingestion keeps ids unique and adds exactly one row. */
  lemma IngestKeepsIdsUnique(t: Table, e: Event)
    requires UniqueIds(t)
    ensures Ingest(t, e).Success? ==> UniqueIds(Ingest(t, e).value) && |Ingest(t, e).value| == |t| + 1
  {
  }

  const FiveMinutesSecs: int := 5 * 60
  const OneHourSecs: int := 60 * 60

  /** The WHERE clause for a window; any window other than 5m and 1h counts every row. */
  predicate InWindow(e: Event, timeWindow: string, now: int) {
    if timeWindow == "5m" then e.timestamp >= now - FiveMinutesSecs
    else if timeWindow == "1h" then e.timestamp >= now - OneHourSecs
    else true
  }

  /** The rows that pass the window's WHERE clause, in order: every passing row, as often as it occurs, and no other. */
  function Filter(t: Table, timeWindow: string, now: int): (f: Table)
    ensures forall e :: e in f ==> e in t && InWindow(e, timeWindow, now)
    ensures forall e :: multiset(f)[e] == if InWindow(e, timeWindow, now) then multiset(t)[e] else 0
    decreases |t|
  {
    if t == [] then []
    else
      var last := t[|t| - 1];
      assert t == t[..|t| - 1] + [last];
      Filter(t[..|t| - 1], timeWindow, now) + (if InWindow(last, timeWindow, now) then [last] else [])
  }

  /** SUM(points) over the rows of one category; never negative when no row's points are. */
  function Sum(t: Table, category: string): (s: int)
    ensures (forall i :: 0 <= i < |t| ==> t[i].points >= 0) ==> s >= 0
    decreases |t|
  {
    if t == [] then 0
    else
      var last := t[|t| - 1];
      Sum(t[..|t| - 1], category) + (if last.category == category then last.points else 0)
  }

  /** The categories that occur, each once, in order of first occurrence (the GROUP BY keys). */
  function Groups(t: Table): (g: seq<string>)
    ensures forall c :: c in g <==> exists i :: 0 <= i < |t| && t[i].category == c
    ensures forall i, j :: 0 <= i < j < |g| ==> g[i] != g[j]
    decreases |t|
  {
    if t == [] then []
    else
      var init := Groups(t[..|t| - 1]);
      var c := t[|t| - 1].category;
      if c in init then init else init + [c]
  }

  /** The result set of the grouped query: one (category, sum) row per group. */
  function GroupResults(t: Table): (rs: Points)
    ensures |rs| == |Groups(t)|
    ensures forall i :: 0 <= i < |rs| ==> rs[i] == Entry(Groups(t)[i], Sum(t, Groups(t)[i]))
  {
    var g := Groups(t);
    seq(|g|, i requires 0 <= i < |g| => Entry(g[i], Sum(t, g[i])))
  }

  /** The totals dict before the results are copied in: every house at zero. */
  function ZeroTotals(): (z: Points)
    ensures Keys(z) == BackendCategories
    ensures forall i :: 0 <= i < |z| ==> z[i].points == 0
  {
    seq(|BackendCategories|, i requires 0 <= i < |BackendCategories| => Entry(BackendCategories[i], 0))
  }

  /** `for category, points in results: totals[category] = points`; the keys already present keep their positions. */
  function CopyResults(p: Points, rs: Points): (r: Points)
    ensures |r| >= |p| && Keys(r)[..|p|] == Keys(p)
    decreases |rs|
  {
    if rs == [] then p
    else
      var p' := Assign(p, rs[0].key, rs[0].points);
      assert |Keys(p')| >= |p| && Keys(p')[..|p|] == Keys(p);
      CopyResults(p', rs[1..])
  }

  /**
   * `get_points_by_time_window`: the four houses first, in declaration
   * order, each holding the sum of its rows that pass the window's filter
   * (zero when there are none), then any other category that occurs.
   */
  function PointsByWindow(t: Table, timeWindow: string, now: int): (p: Points)
    ensures Lookup(p, "Gryff") == Some(Sum(Filter(t, timeWindow, now), "Gryff"))
    ensures Lookup(p, "Slyth") == Some(Sum(Filter(t, timeWindow, now), "Slyth"))
    ensures Lookup(p, "Raven") == Some(Sum(Filter(t, timeWindow, now), "Raven"))
    ensures Lookup(p, "Huff") == Some(Sum(Filter(t, timeWindow, now), "Huff"))
    ensures |p| >= 4 && Keys(p)[..4] == BackendCategories
  {
    HouseTotals(t, timeWindow, now);
    assert Key(Gryff) == "Gryff" && Key(Slyth) == "Slyth" && Key(Raven) == "Raven" && Key(Huff) == "Huff";
    CopyResults(ZeroTotals(), GroupResults(Filter(t, timeWindow, now)))
  }

  /** Sum of a category with no rows is zero. */
  lemma {:induction false} SumAbsent(t: Table, c: string)
    requires forall i :: 0 <= i < |t| ==> t[i].category != c
    ensures Sum(t, c) == 0
    decreases |t|
  {
    if t != [] {
      SumAbsent(t[..|t| - 1], c);
    }
  }

  /** Copying distinct-keyed results overwrites exactly the keys they carry and leaves every other key's value. */
  lemma {:induction false} CopyResultsLookup(p: Points, rs: Points, k: string)
    requires DistinctKeys(rs)
    ensures Lookup(CopyResults(p, rs), k) == if Lookup(rs, k).Some? then Lookup(rs, k) else Lookup(p, k)
    decreases |rs|
  {
    if rs != [] {
      var p' := Assign(p, rs[0].key, rs[0].points);
      assert DistinctKeys(rs[1..]);
      CopyResultsLookup(p', rs[1..], k);
      if rs[0].key != k {
        assert Lookup(rs, k) == Lookup(rs[1..], k);
      } else {
        LookupMissing(rs[1..], k);
      }
    }
  }

  /** A key that no entry carries reads as undefined. */
  lemma {:induction false} LookupMissing(rs: Points, k: string)
    requires forall i :: 0 <= i < |rs| ==> rs[i].key != k
    ensures Lookup(rs, k).None?
    decreases |rs|
  {
    if rs != [] {
      LookupMissing(rs[1..], k);
    }
  }

  /** Reading one group from the result set. */
  lemma {:induction false} GroupResultsLookup(t: Table, k: string)
    ensures DistinctKeys(GroupResults(t))
    ensures k in Groups(t) ==> Lookup(GroupResults(t), k) == Some(Sum(t, k))
    ensures k !in Groups(t) ==> Lookup(GroupResults(t), k).None?
  {
    var rs := GroupResults(t);
    if k in Groups(t) {
      var i :| 0 <= i < |Groups(t)| && Groups(t)[i] == k;
      LookupAt(rs, i);
    } else {
      LookupMissing(rs, k);
    }
  }

  /** In an object with distinct keys, reading the key of entry `i` yields entry `i`'s value. */
  lemma {:induction false} LookupAt(rs: Points, i: nat)
    requires i < |rs| && DistinctKeys(rs)
    ensures Lookup(rs, rs[i].key) == Some(rs[i].points)
    decreases i
  {
    if i > 0 {
      assert DistinctKeys(rs[1..]);
      assert rs[1..][i - 1] == rs[i];
      LookupAt(rs[1..], i - 1);
    }
  }

  /** The zero-initialised totals with the grouped results copied in hold each house's filtered sum, houses first. */
  lemma HouseTotals(t: Table, timeWindow: string, now: int)
    ensures var p := CopyResults(ZeroTotals(), GroupResults(Filter(t, timeWindow, now)));
      && (forall h: House :: Lookup(p, Key(h)) == Some(Sum(Filter(t, timeWindow, now), Key(h))))
      && |p| >= 4 && Keys(p)[..4] == BackendCategories
  {
    var f := Filter(t, timeWindow, now);
    var rs := GroupResults(f);
    GroupResultsLookup(f, "");
    forall h: House ensures Lookup(CopyResults(ZeroTotals(), rs), Key(h)) == Some(Sum(f, Key(h))) {
      GroupResultsLookup(f, Key(h));
      CopyResultsLookup(ZeroTotals(), rs, Key(h));
      if Key(h) !in Groups(f) {
        SumAbsent(f, Key(h));
      }
      ZeroTotalsLookup(h);
    }
    assert Keys(ZeroTotals()) == BackendCategories;
  }

  /** Each house starts at zero in the totals dict. */
  lemma ZeroTotalsLookup(h: House)
    ensures Lookup(ZeroTotals(), Key(h)) == Some(0)
  {
    var z := ZeroTotals();
    assert z == [Entry("Gryff", 0), Entry("Slyth", 0), Entry("Raven", 0), Entry("Huff", 0)];
  }

  /** What one more row adds to a window's sum for a category. */
  lemma FilterSumSnoc(t: Table, e: Event, timeWindow: string, now: int, c: string)
    ensures Sum(Filter(t + [e], timeWindow, now), c)
         == Sum(Filter(t, timeWindow, now), c) + (if InWindow(e, timeWindow, now) && e.category == c then e.points else 0)
  {
    assert (t + [e])[..|t|] == t;
    var f := Filter(t, timeWindow, now);
    assert Filter(t + [e], timeWindow, now) == f + (if InWindow(e, timeWindow, now) then [e] else []);
    if InWindow(e, timeWindow, now) {
      var g := f + [e];
      assert g[..|g| - 1] == f;
      assert g[|g| - 1] == e;
      assert Sum(g, c) == Sum(f, c) + (if e.category == c then e.points else 0);
    } else {
      assert f + [] == f;
    }
  }

  /**
   * With non-negative points, the five-minute total of a category never
   * exceeds the one-hour total, which never exceeds the all-time total.
   */
  lemma {:induction false} WindowsNested(t: Table, now: int, c: string)
    requires forall i :: 0 <= i < |t| ==> t[i].points >= 0
    ensures Sum(Filter(t, "5m", now), c) <= Sum(Filter(t, "1h", now), c) <= Sum(Filter(t, "all", now), c)
    decreases |t|
  {
    if t != [] {
      var init, e := t[..|t| - 1], t[|t| - 1];
      assert t == init + [e];
      WindowsNested(init, now, c);
      FilterSumSnoc(init, e, "5m", now, c);
      FilterSumSnoc(init, e, "1h", now, c);
      FilterSumSnoc(init, e, "all", now, c);
    }
  }

  /** The per-house totals of the three windows are nested for non-negative points. */
  lemma WindowTotalsNested(t: Table, now: int, h: House)
    requires forall i :: 0 <= i < |t| ==> t[i].points >= 0
    ensures var a := Lookup(PointsByWindow(t, "5m", now), Key(h));
      var b := Lookup(PointsByWindow(t, "1h", now), Key(h));
      var c := Lookup(PointsByWindow(t, "all", now), Key(h));
      a.Some? && b.Some? && c.Some? && a.value <= b.value <= c.value
  {
    WindowsNested(t, now, Key(h));
  }

  /**
   * Ingesting an event raises its house's total in every window whose filter
   * it passes by its points, and leaves every other house unchanged.
   */
  lemma IngestUpdatesTotals(t: Table, e: Event, timeWindow: string, now: int, h: House)
    requires Ingest(t, e).Success?
    ensures var before := Lookup(PointsByWindow(t, timeWindow, now), Key(h));
      var after := Lookup(PointsByWindow(Ingest(t, e).value, timeWindow, now), Key(h));
      && before.Some? && after.Some?
      && after.value == before.value + (if e.category == Key(h) && InWindow(e, timeWindow, now) then e.points else 0)
  {
    FilterSumSnoc(t, e, timeWindow, now, Key(h));
  }
}

=== FILE: websocket_hook.dfy ===
/**
 * The connection state of client/src/hooks/useWebSocket.js: the `socket` and
 * `isConnected` state variables, the open/close/error handlers, the guarded
 * `sendMessage`, and the effect teardown.
 */
module WebSocketHook {
  import opened Base
  import opened Wire

  /** The transport's `readyState`, which the hook reads but never sets. */
  datatype ReadyState = Connecting | Open | Closing | Closed

  /** The hook's state, with the socket its connection effect created. */
  datatype Hook = Hook(socket: Option<SocketId>, isConnected: bool, created: SocketId)

  /** The state right after the connection effect has created socket `ws`. */
  function Init(ws: SocketId): (h: Hook)
    ensures h.socket.None? && !h.isConnected
    ensures h.created == ws
  {
    Hook(None, false, ws)
  }

  /**
   * `onopen`: publish the created socket and mark the hook connected. The
   * second component lists the arguments `onOpen` was invoked with.
   */
  function OnOpen(h: Hook, hasOnOpen: bool): (r: (Hook, seq<SocketId>))
    ensures r.0.socket == Some(h.created) && r.0.isConnected
    ensures r.0.created == h.created
    ensures hasOnOpen ==> r.1 == [h.created]
    ensures !hasOnOpen ==> r.1 == []
  {
    (Hook(Some(h.created), true, h.created), if hasOnOpen then [h.created] else [])
  }

  /** `onclose`: forget the socket and mark the hook disconnected. */
  function OnClose(h: Hook): (h': Hook)
    ensures h'.socket.None? && !h'.isConnected
    ensures h'.created == h.created
  {
    Hook(None, false, h.created)
  }

  /** `onerror`: mark the hook disconnected but keep the socket. */
  function OnError(h: Hook): (h': Hook)
    ensures h'.socket == h.socket && !h'.isConnected
    ensures h'.created == h.created
  {
    h.(isConnected := false)
  }

  /** `sendMessage`: what reaches the transport when the socket's state is `ready`. */
  function SendMessage(h: Hook, ready: ReadyState, msg: Action): (sent: seq<Action>)
    ensures sent != [] <==> h.socket.Some? && ready == Open
    ensures |sent| <= 1
    ensures forall i :: 0 <= i < |sent| ==> sent[i] == msg
  {
    if h.socket.Some? && ready == Open then [msg] else []
  }

  /** The effect cleanup: the socket it closes. */
  function Teardown(h: Hook): (ws: SocketId) {
    h.created
  }

  /** A connected hook always holds a socket. */
  predicate Consistent(h: Hook) {
    h.isConnected ==> h.socket.Some?
  }

  datatype Signal = OpenEvent | CloseEvent | ErrorEvent

  function Step(h: Hook, s: Signal, hasOnOpen: bool): (h': Hook) {
    match s
    case OpenEvent => OnOpen(h, hasOnOpen).0
    case CloseEvent => OnClose(h)
    case ErrorEvent => OnError(h)
  }

  function Run(h: Hook, sigs: seq<Signal>, hasOnOpen: bool): (h': Hook)
    decreases |sigs|
  {
    if sigs == [] then h else Run(Step(h, sigs[0], hasOnOpen), sigs[1..], hasOnOpen)
  }

  /**
   * From creation, any sequence of transport signals keeps the hook
   * consistent, keeps the created socket, and only ever publishes that socket.
   */
  lemma {:induction false} RunConsistent(h: Hook, sigs: seq<Signal>, hasOnOpen: bool)
    requires Consistent(h)
    requires h.socket.Some? ==> h.socket.value == h.created
    ensures Consistent(Run(h, sigs, hasOnOpen))
    ensures Run(h, sigs, hasOnOpen).created == h.created
    ensures Run(h, sigs, hasOnOpen).socket.Some? ==> Run(h, sigs, hasOnOpen).socket.value == h.created
    decreases |sigs|
  {
    if sigs != [] {
      RunConsistent(Step(h, sigs[0], hasOnOpen), sigs[1..], hasOnOpen);
    }
  }

  /**
   * An error after open leaves a socket published while `isConnected` is
   * false; the send guard reads the transport's state, not `isConnected`, so
   * a message still goes out if the transport stays open.
   */
  lemma ErrorLeavesSocket(ws: SocketId, hasOnOpen: bool, msg: Action)
    ensures var h := OnError(OnOpen(Init(ws), hasOnOpen).0);
      h.socket == Some(ws) && !h.isConnected && SendMessage(h, Open, msg) == [msg]
  {
  }

  /** Teardown closes the created socket even after `onclose` has cleared the state. */
  lemma TeardownClosesCreated(h: Hook)
    ensures Teardown(OnClose(h)) == Teardown(OnError(h)) == Teardown(h) == h.created
  {
  }
}

=== FILE: wire.dfy ===
/** The messages exchanged between the client and the backend over the socket. */
module Wire {
  import opened Base
  import opened Entries

  /** The identity of one WebSocket connection, on either end. */
  type SocketId = nat

  /**
   * A scoring record as the backend generates, stores and broadcasts it.
   * The ISO-8601 timestamp is abstracted to an integer number of seconds.
   */
  datatype Event = Event(id: string, category: string, points: int, timestamp: int)

  /** Client-to-server commands, by their `action` field. */
  datatype Action = GetPoints(timeWindow: string) | Start | Stop

  /**
   * A server-to-client payload after parsing. `totals` maps window ids to
   * house-points objects. A field that is absent (or a falsy JSON value) is
   * None; a payload that does not parse, or is not an object, is Malformed.
   */
  datatype Inbound =
    | Malformed
    | Message(totals: Option<map<string, Points>>, event: Option<Event>)
}
